=== FILE: README.md ===
# sieve_actors in Dafny

A model of the actor-based Sieve of Eratosthenes in four variants. Each variant
has a controller and four shards (the `Model` actors). The shards start with the
seeds 2, 3, 5 and 7. Each shard keeps an append-only list of known primes.

On every `:next` the controller first hands out the seeds. After that it draws
candidates from a generator of numbers ending in 1, 3, 7 or 9 and asks every
shard about each one. A shard rejects a candidate when one of its stored values
other than the candidate divides it, and a shard with no primes answers `nil`.
The first candidate that every shard accepts is stored in one shard and returned.

The variants:
- `sieve_actor.rb` and `celluloid_base.rb` search synchronously: they find the
  first accepted candidate.
- `akka_nb.rb` and `nonblocking/sieve_actor_nonblocking.rb` are event-driven.
  They tally shard votes that arrive as separate messages.

Modules:
- `Primes`: primality, prime-free gaps and "least prime above".
- `Candidates`: the generator, a single integer cursor that starts at 9.
- `Shard`: the tri-state verdict `Unknown` / `Prime` / `NotPrime` that all four
  variants compute.
- `Sieve`: what the controllers share:
  - the seeds and the four shards;
  - the unanimity rule;
  - the find-first search;
  - the invariant that the shards know exactly the primes up to the generator's
    cursor;
  - the description of a correct output stream.
- `Controllers`: the state and effects shared by the two event-driven
  controllers.
- `AkkaNb`, `NonBlocking`, `SieveActor`, `Celluloid`: one module per source
  file, each with its own message encoding.

The event-driven controllers are pure transitions `Handle(state, message, pick)`
that return the new state and the messages sent (`Effect`s). `Serve` delivers
one request and the shard votes it sets off, round by round. It then proves that
the reply is the least prime above the generator's cursor, and it returns every
message the controller sent: one broadcast per candidate tried, then the store
and exactly one reply, to the caller.

The central result, `Sieve.AcceptsIffPrime`, is this: while the shards together
hold exactly the primes up to the cursor, the pool accepts a candidate exactly
when it is prime. The reason is that a composite candidate has a prime factor
at or below the cursor, and that factor is stored in some shard.

The search terminates, and no fuel is needed. One more than the product of all
held primes times the cursor ends in 1, because 2 and 5 are held. It is accepted
by every shard (`Sieve.Escape`), and it bounds the search.

As a consequence, `Take` in every variant returns exactly the first `n` primes,
in order.

The shard chosen by `rand @models.size` is the parameter `pick`. Reply channels
are opaque `Caller` values.

The generator's fifth value is 21. The code steps from 19 by 2, because 19 does
not end in 3, and the shards then reject 21. The first five primes found are
11, 13, 17, 19 and 23, but the generator yields 21 between 19 and 23
(`Candidates.FirstFive`).

## Model

| member | source | states |
|---|---|---|
| Candidates.Step | src/ruby/akka_nb.rb:46-50 | one turn of the loop moves the cursor strictly up; from a value ending in 1, 3, 7 or 9 it reaches the next such value and skips none |
| Candidates.Nth | src/ruby/akka_nb.rb:39-50 | every value a fresh generator yields ends in 1, 3, 7 or 9 and lies above the unemitted start 9 |
| Candidates.FirstFive | src/ruby/akka_nb.rb:42-49 | a fresh generator yields 11, 13, 17, 19, 21 first |
| Candidates.NthIncreasing | src/ruby/akka_nb.rb:46-50 | the generator's output is strictly increasing, so it never repeats or restarts |
| Candidates.NthReachesAllowed | src/ruby/akka_nb.rb:45-50 | every integer above 9 ending in 1, 3, 7 or 9 is yielded at some position |
| Candidates.SkippedNotPrime | src/ruby/akka_nb.rb:45 | the integers above 5 the generator skips are never prime |
| Candidates.DrawnNext | src/ruby/akka_nb.rb:119-122 | each further `first` call extends the run of drawn values by one generator step, and the run is strictly increasing |
| Shard.NoneRejects | src/ruby/akka_nb.rb:185-187 | the `none?` walk is true exactly when no stored value other than the candidate divides it |
| Shard.Query | src/ruby/celluloid_base.rb:98-107 | Unknown exactly for an empty shard, Prime exactly when it is non-empty and nothing rejects, NotPrime exactly when some stored value rejects |
| Shard.PrimeAccepted | src/ruby/celluloid_base.rb:104-106 | a shard of primes accepts every prime, so a stored prime queried on itself is prime |
| Shard.AddKeepsRejection | src/ruby/celluloid_base.rb:94-96 | appending a value never turns a rejection into an acceptance |
| Shard.SeedShardVerdict | src/ruby/tests/celluloid_model_test.rb:42-48 | the shard holding 2, 3, 5, 7 accepts exactly the seeds and the numbers none of them divides, and never answers `nil` |
| Shard.SeedMultipleRejected | src/ruby/tests/celluloid_model_test.rb:31-38 | that shard rejects every multiple `k * seed` with `k >= 2` |
| Sieve.InitialShards | src/ruby/akka_nb.rb:57-65 | the four shards are built holding one seed each, shard `i` the `i`-th of 2, 3, 5, 7 |
| Sieve.Store | src/ruby/akka_nb.rb:138 | storing a prime appends it to shard `pick` alone; every other shard is unchanged |
| Sieve.InitialProgress | src/ruby/akka_nb.rb:63-67 | after construction, with all four seeds left, the shards hold exactly the primes up to the start cursor 9 |
| Sieve.AcceptsIffPrime | src/ruby/sieve_actor.rb:84-90 | while the shards hold exactly the primes up to the cursor and none lies between it and `c`, every shard accepts `c` exactly when `c` is prime |
| Sieve.StoreNextPrime | src/ruby/sieve_actor.rb:94 | storing the least prime above the cursor in any one shard moves the knowledge boundary up to that prime |
| Sieve.Escape | src/ruby/sieve_actor.rb:84-90 | some value the generator yields beyond the cursor is accepted by every shard, so the search ends |
| Sieve.FindFirst | src/ruby/sieve_actor.rb:84-90 | the search returns a yielded value every shard accepts, every earlier yielded value is rejected by some shard, and the result is the least prime above the cursor |
| Sieve.ShiftSeed | src/ruby/sieve_actor.rb:75-79 | handing out the front seed leaves the rest of the controller's state valid |
| Sieve.AdvanceToPrime | src/ruby/sieve_actor.rb:94-97 | storing the found prime and moving the cursor onto it keeps the controller's state valid |
| Sieve.PrimeSequenceIncreasing | src/ruby/tests/celluloid_controller_test.rb:21 | a stream that gives the seeds and then each next least prime contains only primes, in strictly increasing order |
| Sieve.PrimeSequenceComplete | src/ruby/tests/celluloid_controller_test.rb:21 | such a stream skips no prime up to its last value |
| Controllers.Advance | src/ruby/akka_nb.rb:119-122 | `update_and_send_candidate` moves the generator exactly one step up, keeping it on values ending in 1, 3, 7 or 9, makes that value the candidate and broadcasts it to all four shards, touching nothing else |
| Controllers.Conclude | src/ruby/akka_nb.rb:133-151 | after a unanimous `true` the round closes, the candidate is added to shard `pick` and sent on the saved channel; otherwise the votes are cleared, the generator moves exactly one step and that value is broadcast as the new candidate, with no reply |
| Controllers.SearchOn | src/ruby/akka_nb.rb:146-151 | after a rejected composite the search moves to the next drawn value, broadcasts it, and has still passed no prime |
| Controllers.InitialSysValid | src/ruby/akka_nb.rb:56-72 | a freshly built controller is idle, with its shards knowing the primes up to 9 |
| AkkaNb.ModelReceive | src/ruby/akka_nb.rb:163-192 | `:add` appends only a two-element message; `:prime?` answers `nil` exactly for a wrong length or an empty shard, otherwise the verdict tagged with the echoed candidate |
| AkkaNb.ValidReply | src/ruby/akka_nb.rb:114-116 | a vote is valid exactly when it carries one value equal to the open candidate, and never while no round is open |
| AkkaNb.CheckReplies | src/ruby/akka_nb.rb:127-152 | below four votes nothing changes and nothing is sent; with four unanimous `true` votes the round closes, the candidate is stored in shard `pick` and sent to the caller; with four votes not all `true` the votes are cleared, the generator moves exactly one step and that value is broadcast, with no reply |
| AkkaNb.Handle | src/ruby/akka_nb.rb:80-116 | a seed is answered at once; a vote of the wrong length or about another value changes nothing; a valid vote is tallied; the tally stays below the shard count, and the fourth vote concludes the round |
| AkkaNb.Deliver | src/ruby/akka_nb.rb:127-131 | after any sequence of messages the vote count stays below the shard count |
| AkkaNb.Votes | src/ruby/akka_nb.rb:182-188 | shard `i` votes `:prime` on `c` exactly when its verdict is `Prime` |
| AkkaNb.Tally | src/ruby/akka_nb.rb:96-107 | the controller stays silent until a round's last vote and then concludes on all of them |
| AkkaNb.Round | src/ruby/akka_nb.rb:127-152 | one round stores and returns the candidate exactly when every shard accepts it, and otherwise broadcasts the generator's next value |
| AkkaNb.Apply | src/ruby/akka_nb.rb:168-173 | an add sent by the controller appends the value to the chosen shard |
| AkkaNb.Serve | src/ruby/akka_nb.rb:80-152 | a request returns the front seed while any is left, with one reply and nothing else sent; otherwise the least prime above the cursor, stored in shard `pick`, after broadcasting each value the generator yields up to it, every earlier one composite, and then exactly one reply, to the caller |
| AkkaNb.Search | src/ruby/akka_nb.rb:95-152 | the rounds after the first broadcast end on the least prime above the cursor, with the controller idle again and the messages sent being the broadcasts of the values drawn, the store and the reply |
| AkkaNb.Take | src/ruby/tests/controller_test.rb:24-36 | `take(n)` on a fresh controller returns the first `n` primes in order: seeds first, only primes, increasing, none skipped |
| NonBlocking.ModelReceive | src/ruby/nonblocking/sieve_actor_nonblocking.rb:145-170 | `:add` appends unconditionally; `:isprime` answers `nil` exactly for an empty shard and otherwise the verdict as a boolean |
| NonBlocking.Handle | src/ruby/nonblocking/sieve_actor_nonblocking.rb:80-134 | a seed is answered at once; every vote is tallied with no candidate check; the tally stays below the shard count, and the vote that brings it to four concludes the round |
| NonBlocking.Deliver | src/ruby/nonblocking/sieve_actor_nonblocking.rb:104-107 | after the votes of an open round the vote count stays below the shard count |
| NonBlocking.Votes | src/ruby/nonblocking/sieve_actor_nonblocking.rb:163-166 | shard `i` votes `true` on `c` exactly when its verdict is `Prime` |
| NonBlocking.Tally | src/ruby/nonblocking/sieve_actor_nonblocking.rb:102-107 | the controller stays silent until a round's last vote and then concludes on all of them |
| NonBlocking.Round | src/ruby/nonblocking/sieve_actor_nonblocking.rb:107-131 | one round stores and returns the candidate exactly when every shard accepts it, and otherwise broadcasts the generator's next value |
| NonBlocking.Apply | src/ruby/nonblocking/sieve_actor_nonblocking.rb:150-151 | an add sent by the controller appends the value to the chosen shard |
| NonBlocking.Serve | src/ruby/nonblocking/sieve_actor_nonblocking.rb:80-134 | a request returns the front seed while any is left, with one reply and nothing else sent; otherwise the least prime above the cursor, stored in shard `pick`, after broadcasting each value the generator yields up to it, every earlier one composite, and then exactly one reply, to the caller |
| NonBlocking.Search | src/ruby/nonblocking/sieve_actor_nonblocking.rb:99-134 | the rounds after the first broadcast end on the least prime above the cursor, with the controller idle again and the messages sent being the broadcasts of the values drawn, the store and the reply |
| NonBlocking.Take | src/ruby/tests/sieve_nonblocking_controller_actor_test.rb:28-40 | `take(n)` on a fresh controller returns the first `n` primes in order |
| SieveActor.ModelReceive | src/ruby/sieve_actor.rb:110-136 | `:add` appends; `:isprime` answers `nil` exactly for an empty shard, `true` exactly on a `Prime` verdict and `false` exactly on `NotPrime` |
| SieveActor.VoteIsVerdict | src/ruby/sieve_actor.rb:85-88 | a shard's answer counts as a yes in `all?` exactly when its verdict is `Prime`, and never for an empty shard |
| SieveActor.Receive | src/ruby/sieve_actor.rb:69-99 | `:next` returns the front seed while any is left, and otherwise the least prime above the cursor, stored in shard `pick`; other messages change nothing |
| SieveActor.Take | src/ruby/tests/sieve_controller_actor_test.rb:22-35 | `take(n)` on a fresh controller returns the first `n` primes in order: seeds first, only primes, increasing, none skipped |
| Celluloid.Add | src/ruby/celluloid_base.rb:94-96 | `add` puts the new prime after every prime already held, which stay in place |
| Celluloid.IsPrimeAnswer | src/ruby/celluloid_base.rb:98-107 | `is_prime` is `nil` exactly for an empty shard, `true` exactly on `Prime` and `false` exactly on `NotPrime` |
| Celluloid.EmptyShardRejects | src/ruby/celluloid_base.rb:69 | an empty shard's `nil` makes `all?` fail, so nothing is accepted while any shard is empty |
| Celluloid.AllTruthyIsAccepts | src/ruby/celluloid_base.rb:69 | `all?` over the values of the four futures holds exactly when every shard accepts the candidate |
| Celluloid.Next | src/ruby/celluloid_base.rb:59-77 | `next` returns the front seed while any is left, and otherwise the least prime above the cursor, stored in shard `pick` |
| Celluloid.Take | src/ruby/tests/celluloid_controller_test.rb:14-21 | `Primes.new.take(n)` returns the first `n` primes in order |

## Left out

- The actor runtime is not modelled: actor creation, start and stop, `postStop`, mailboxes, futures, `await`, `replySafe` and reply channels. Messages a controller sends become `Effect` values. Replies to a caller are returned values.
- `rand @models.size` is the parameter `pick`, and `pick < 4` is required.
- Concurrency is not modelled. `Serve` delivers the four votes of a round in shard order. `Tally` shows that the order within a round does not matter for the outcome.
- A second `:next` while a round is open is not served by `Serve`. `Handle` models it: the candidate and the channel are replaced and the votes already tallied are kept, as in the source.
- The blocking `sieve_actor.rb` search has a `return false` for a future without a result (line 87). That is a timeout of the actor runtime, which is not modelled. With it, `onReceive` would return without storing or replying.
- Logging (`puts "Unknown message type ..."`) is left out. A message of unknown type changes nothing in the model.
- The Akka controllers never meet a `nil` shard answer, because no shard is empty once built. In `akka_nb.rb` such an answer would make `msg[0]` fail. `AkkaNb.Votes` therefore requires non-empty shards. In the other non-blocking variant a bare `nil` is modelled as an unrecognised message.
- NonBlocking.Handle: a vote that brings the tally to four while no round is open is excluded by `Deliverable`. In the source (lines 107-131) what follows depends on the four votes. If all are true, `nil` is stored in a shard and `nil` is sent on the old reply channel. Otherwise a new candidate is drawn and broadcast, which opens a round no caller asked for; its answer later goes to the old reply channel.
- A stored 0 is not modelled. The source raises on `c % 0`, so the shard queries require non-zero stored values. The controllers only ever store primes.
- `Primes#each` is modelled as `Take`, a bounded number of requests from one caller. The unbounded lazy enumeration itself is not modelled.
- `src/ruby/proc_actor.rb` is not part of this model. It only forwards messages to a Proc.
- Integer width plays no part: Ruby integers are unbounded, and so are Dafny's.

=== FILE: akka_nb.dfy ===
/**
 The non-blocking Akka variant (src/ruby/akka_nb.rb). Shards answer a query with
 `[:prime, c]` or `[:not_prime, c]`, naming the candidate they judged; the
 controller drops a vote that is malformed or names anything but the current
 candidate, so a vote from an earlier round can never count toward a later one.
 */
module AkkaNb {
  import opened Options
  import opened Primes
  import opened Candidates
  import opened Shard
  import opened Sieve
  import opened Controllers

  /** A message to a shard: the symbol in `msg[0]` and the remaining elements. */
  datatype ModelMsg = AddMsg(args: seq<int>) | PrimeQuery(args: seq<int>) | UnknownModelMsg

  /** What a shard sends back: nothing, `nil`, or `[:prime, c]` / `[:not_prime, c]`. */
  datatype ModelReply = Silent | NilReply | Answer(prime: bool, candidate: int)

  /** `Model#onReceive`. A message of the wrong length is ignored (`:add`) or
      answered with `nil` (`:prime?`), as is a query to a shard with no primes. */
  function ModelReceive(primes: seq<int>, msg: ModelMsg): (r: (seq<int>, ModelReply))
    requires msg.PrimeQuery? ==> NonZero(primes)
    ensures msg.AddMsg? && |msg.args| == 1 ==> r == (primes + [msg.args[0]], Silent)
    ensures msg.AddMsg? && |msg.args| != 1 ==> r == (primes, Silent)
    ensures msg.PrimeQuery? ==> r.0 == primes
    ensures msg.PrimeQuery? ==> (r.1 == NilReply <==> |msg.args| != 1 || |primes| == 0)
    ensures msg.PrimeQuery? && |msg.args| == 1 && |primes| > 0 ==>
      r.1 == Answer(Query(primes, msg.args[0]) == Prime, msg.args[0])
    ensures msg.UnknownModelMsg? ==> r == (primes, Silent)
  {
    match msg
    case AddMsg(args) =>
      if |args| != 1 then (primes, Silent) else (primes + [args[0]], Silent)
    case PrimeQuery(args) =>
      if |args| != 1 || |primes| == 0 then (primes, NilReply)
      else (primes, Answer(NoneRejects(primes, args[0]), args[0]))
    case UnknownModelMsg => (primes, Silent)
  }

  /** A message to the controller: `[:next, _]` from a caller, a shard's vote
      `[:prime, ...]` or `[:not_prime, ...]`, or anything else. */
  datatype ControllerMsg =
    | NextMsg(from: Caller)
    | PrimeMsg(args: seq<int>)
    | NotPrimeMsg(args: seq<int>)
    | OtherMsg

  /** `validate_model_reply`: exactly one value after the symbol, and it is the
      current candidate, so a vote is never valid while no round is open. */
  function ValidReply(s: Controller, args: seq<int>): (ok: bool)
    ensures s.candidate.None? ==> !ok
    ensures s.candidate.Some? ==> (ok <==> args == [s.candidate.value])
  {
    |args| == 1 && s.candidate == Some(args[0])
  }

  /** `check_replies`: nothing happens until every shard has voted; the caller
      is answered exactly when all four votes are `true`. */
  function CheckReplies(s: Controller, pick: nat): (r: (Controller, seq<Effect>))
    requires s.candidate.Some? && s.channel.Some? && |s.replies| <= ShardCount
    ensures |s.replies| < ShardCount ==> r == (s, [])
    ensures |s.replies| == ShardCount ==> r.0.replies == [] && r.0.seeds == s.seeds
    ensures |s.replies| == ShardCount ==> r == Conclude(s, pick)
    ensures ReplyTo(s.channel.value, s.candidate.value) in r.1 <==>
      |s.replies| == ShardCount && AllTrue(s.replies)
  {
    if |s.replies| < ShardCount then (s, []) else Conclude(s, pick)
  }

  /** `Controller#onReceive`; `pick` is the value of `rand @models.size`. */
  function Handle(s: Controller, msg: ControllerMsg, pick: nat): (r: (Controller, seq<Effect>))
    requires Valid(s) && pick < ShardCount
    ensures Valid(r.0)
    ensures msg.NextMsg? && |s.seeds| > 0 ==>
      r == (s.(seeds := s.seeds[1..]), [ReplyTo(msg.from, s.seeds[0])])
    ensures msg.NextMsg? && |s.seeds| == 0 ==>
      && r.0 == s.(cursor := Step(s.cursor), candidate := Some(Step(s.cursor)), channel := Some(msg.from))
      && r.1 == Broadcast(Step(s.cursor))
    ensures msg.OtherMsg? ==> r == (s, [])
    ensures (msg.PrimeMsg? || msg.NotPrimeMsg?) && !ValidReply(s, msg.args) ==> r == (s, [])
    ensures (msg.PrimeMsg? || msg.NotPrimeMsg?) && ValidReply(s, msg.args) && |s.replies| + 1 < ShardCount ==>
      r == (s.(replies := s.replies + [msg.PrimeMsg?]), [])
    ensures (msg.PrimeMsg? || msg.NotPrimeMsg?) && ValidReply(s, msg.args) && |s.replies| + 1 == ShardCount ==>
      r == Conclude(s.(replies := s.replies + [msg.PrimeMsg?]), pick)
  {
    match msg
    case NextMsg(from) =>
      if |s.seeds| > 0 then (s.(seeds := s.seeds[1..]), [ReplyTo(from, s.seeds[0])])
      else Advance(s.(channel := Some(from)))
    case PrimeMsg(args) =>
      if !ValidReply(s, args) then (s, [])
      else CheckReplies(s.(replies := s.replies + [true]), pick)
    case NotPrimeMsg(args) =>
      if !ValidReply(s, args) then (s, [])
      else CheckReplies(s.(replies := s.replies + [false]), pick)
    case OtherMsg => (s, [])
  }

  /** The controller handles `msgs` in order; the effects are concatenated. */
  function Deliver(s: Controller, msgs: seq<ControllerMsg>, pick: nat): (r: (Controller, seq<Effect>))
    requires Valid(s) && pick < ShardCount
    ensures Valid(r.0)
    decreases |msgs|
  {
    if |msgs| == 0 then (s, [])
    else
      var first := Handle(s, msgs[0], pick);
      var rest := Deliver(first.0, msgs[1..], pick);
      (rest.0, first.1 + rest.1)
  }

  /** The vote a shard's answer turns into when it reaches the controller. */
  function Forward(reply: ModelReply): ControllerMsg
    requires reply.Answer?
  {
    if reply.prime then PrimeMsg([reply.candidate]) else NotPrimeMsg([reply.candidate])
  }

  /** A vote about `c` carrying `b`. */
  function VoteMsg(b: bool, c: int): ControllerMsg {
    if b then PrimeMsg([c]) else NotPrimeMsg([c])
  }

  function VoteMsgs(bs: seq<bool>, c: int): (msgs: seq<ControllerMsg>)
    ensures |msgs| == |bs|
    ensures forall i :: 0 <= i < |bs| ==> msgs[i] == VoteMsg(bs[i], c)
  {
    seq(|bs|, i requires 0 <= i < |bs| => VoteMsg(bs[i], c))
  }

  /** The answers of the four shards to a broadcast of `c`, forwarded in shard
      order: shard `i` votes `:prime` exactly when its verdict on `c` is `Prime`. */
  function Votes(shards: seq<seq<int>>, c: int): (msgs: seq<ControllerMsg>)
    requires Filled(shards)
    ensures |msgs| == ShardCount
    ensures forall i :: 0 <= i < ShardCount ==> msgs[i] == VoteMsg(Query(shards[i], c) == Prime, c)
  {
    seq(ShardCount, i requires 0 <= i < ShardCount =>
      Forward(ModelReceive(shards[i], PrimeQuery([c])).1))
  }

  /** However the votes of one round are split between earlier and later
      messages, the controller stays silent until the last one and then concludes
      on all of them together. */
  lemma {:induction false} Tally(s: Controller, bs: seq<bool>, c: int, pick: nat)
    requires Valid(s) && s.candidate == Some(c) && pick < ShardCount
    requires |bs| >= 1 && |s.replies| + |bs| == ShardCount
    ensures Deliver(s, VoteMsgs(bs, c), pick) == Conclude(s.(replies := s.replies + bs), pick)
    decreases |bs|
  {
    var msgs := VoteMsgs(bs, c);
    var s1 := s.(replies := s.replies + [bs[0]]);
    assert ValidReply(s, msgs[0].args);
    if |bs| == 1 {
      assert [bs[0]] == bs;
      var first := Handle(s, msgs[0], pick);
      assert first == Conclude(s1, pick);
      assert Deliver(first.0, msgs[1..], pick) == (first.0, []);
      assert first.1 + [] == first.1;
    } else {
      assert Handle(s, msgs[0], pick) == (s1, []);
      assert msgs[1..] == VoteMsgs(bs[1..], c);
      Tally(s1, bs[1..], c, pick);
      assert s1.replies + bs[1..] == s.replies + bs;
      var rest := Deliver(s1, msgs[1..], pick);
      assert [] + rest.1 == rest.1;
    }
  }

  /** One full round: with the round open and no votes yet, the four shards'
      answers make the controller store and return `c` when every shard accepts
      it, and move on to the generator's next value otherwise. */
  lemma Round(s: Controller, shards: seq<seq<int>>, pick: nat)
    requires Valid(s) && s.candidate.Some? && s.replies == [] && Filled(shards) && pick < ShardCount
    ensures ShardsNonZero(shards)
    ensures var r := Deliver(s, Votes(shards, s.cursor), pick);
      Accepts(shards, s.cursor) ==>
        r == (s.(candidate := None), [AddToShard(pick, s.cursor), ReplyTo(s.channel.value, s.cursor)])
    ensures var r := Deliver(s, Votes(shards, s.cursor), pick);
      !Accepts(shards, s.cursor) ==>
        && r.0 == s.(cursor := Step(s.cursor), candidate := Some(Step(s.cursor)))
        && r.1 == Broadcast(Step(s.cursor))
  {
    var c := s.cursor;
    var bs := seq(ShardCount, i requires 0 <= i < ShardCount => Query(shards[i], c) == Prime);
    assert Votes(shards, c) == VoteMsgs(bs, c);
    Tally(s, bs, c, pick);
    assert [] + bs == bs;
    assert AllTrue(bs) <==> Accepts(shards, c);
  }

  /** A message the controller sends to a shard, as the shard receives it. */
  function Apply(shards: seq<seq<int>>, e: Effect): (r: seq<seq<int>>)
    requires e.AddToShard? && e.shard < |shards|
    ensures r == Store(shards, e.shard, e.value)
  {
    shards[e.shard := ModelReceive(shards[e.shard], AddMsg([e.value])).0]
  }

  /** One blocking `sendRequestReply [:next, 0]` from caller `from`, with the
      messages it sets off delivered one round at a time: the seeds come first,
      and after them the reply is the least prime above the generator's cursor,
      which is also stored in shard `pick`. `effs` is every message the
      controller sends meanwhile: one broadcast per candidate `tried`, each
      rejected one composite, then the store and the single reply to `from`. */
  method Serve(sys: System, from: Caller, pick: nat)
    returns (v: int, sys': System, effs: seq<Effect>, tried: seq<int>)
    requires SysValid(sys) && pick < ShardCount
    ensures SysValid(sys')
    ensures |sys.ctl.seeds| > 0 ==>
      && v == sys.ctl.seeds[0] && sys' == sys.(ctl := sys.ctl.(seeds := sys.ctl.seeds[1..]))
      && effs == [ReplyTo(from, v)] && tried == []
    ensures |sys.ctl.seeds| == 0 ==>
      && LeastPrimeAbove(sys.ctl.cursor, v)
      && sys'.ctl.cursor == v && sys'.ctl.seeds == []
      && sys'.shards == Store(sys.shards, pick, v)
    ensures |sys.ctl.seeds| == 0 ==>
      && Drawn(sys.ctl.cursor, tried) && tried[|tried| - 1] == v
      && (forall i :: 0 <= i < |tried| - 1 ==> !IsPrime(tried[i]))
      && effs == Broadcasts(tried) + [AddToShard(pick, v), ReplyTo(from, v)]
  {
    var first := Handle(sys.ctl, NextMsg(from), pick);
    if |sys.ctl.seeds| > 0 {
      ShiftSeed(sys.ctl.seeds, sys.ctl.cursor, sys.shards);
      return first.1[0].value, sys.(ctl := first.0), first.1, [];
    }
    StartSearch(sys.ctl.cursor, sys.ctl, from);
    var ctl, added;
    v, ctl, added, effs, tried := Search(sys.ctl.cursor, first.0, sys.shards, from, pick, first.1);
    AdvanceToPrime(sys.ctl.cursor, sys.shards, pick, v);
    sys' := System(ctl, added);
  }

  /** The rounds of one request past the seeds, from the first broadcast on:
      each rejected draw sets off the next, until a prime `v` is accepted,
      stored in shard `pick` and sent to `from`. */
  method Search(ghost lo: int, ctl0: Controller, shards: seq<seq<int>>, from: Caller, pick: nat,
                effs0: seq<Effect>)
    returns (v: int, ctl: Controller, added: seq<seq<int>>, effs: seq<Effect>, tried: seq<int>)
    requires Progress([], lo, shards) && pick < ShardCount
    requires Searching(lo, ctl0, from, [ctl0.cursor], effs0)
    ensures LeastPrimeAbove(lo, v) && Allowed(v)
    ensures ctl == Controller([], v, None, [], Some(from)) && added == Store(shards, pick, v)
    ensures Drawn(lo, tried) && tried[|tried| - 1] == v
    ensures forall i :: 0 <= i < |tried| - 1 ==> !IsPrime(tried[i])
    ensures effs == Broadcasts(tried) + [AddToShard(pick, v), ReplyTo(from, v)]
  {
    KnowsNonZero(shards, lo);
    ghost var bound := Escape(shards, lo);
    assert ctl0.cursor == [ctl0.cursor][0] == Step(lo);
    StepWithin(lo, bound);
    ctl := ctl0;
    added := shards;
    v := 0;
    tried := [ctl.cursor];
    effs := effs0;
    while ctl.candidate.Some?
      invariant Valid(ctl) && ctl.seeds == [] && ctl.replies == [] && ctl.channel == Some(from)
      invariant lo < ctl.cursor <= bound && Allowed(ctl.cursor) && NoPrimeIn(lo, ctl.cursor - 1)
      invariant ctl.candidate.Some? ==> Searching(lo, ctl, from, tried, effs)
      invariant ctl.candidate.None? ==>
        && v == ctl.cursor && lo < v && Allowed(v) && NoPrimeIn(lo, v - 1) && Accepts(shards, v)
        && ctl == Controller([], v, None, [], Some(from)) && added == Store(shards, pick, v)
        && Drawn(lo, tried) && tried[|tried| - 1] == v
        && (forall i :: 0 <= i < |tried| - 1 ==> !IsPrime(tried[i]))
        && effs == Broadcasts(tried) + [AddToShard(pick, v), ReplyTo(from, v)]
      decreases bound - ctl.cursor, if ctl.candidate.Some? then 1 else 0
    {
      var c := ctl.cursor;
      Round(ctl, shards, pick);
      var next := Deliver(ctl, Votes(shards, c), pick);
      if next.0.candidate.None? {
        added := Apply(shards, next.1[0]);
        v := next.1[1].value;
      } else {
        assert c != bound;
        StepWithin(c, bound);
        AcceptsIffPrime(shards, lo, c);
        SearchOn(lo, ctl, from, tried, effs);
        tried := tried + [Step(c)];
      }
      effs := effs + next.1;
      ctl := next.0;
    }
    AcceptsIffPrime(shards, lo, v);
  }

  /** `Primes.new(controller).take(n)`: `n` requests from one caller against a
      fresh system, shard `picks[k]` storing the `k`-th new prime. */
  method Take(n: nat, from: Caller, picks: seq<nat>) returns (out: seq<int>)
    requires |picks| >= n
    requires forall k :: 0 <= k < |picks| ==> picks[k] < ShardCount
    ensures |out| == n
    ensures PrimeSequence(out)
    ensures forall k :: 0 <= k < n ==> IsPrime(out[k])
    ensures forall i, j :: 0 <= i < j < n ==> out[i] < out[j]
    ensures n > 0 ==> forall p :: 2 <= p <= out[n - 1] && IsPrime(p) ==> p in out
  {
    var sys := InitialSystem();
    InitialSysValid();
    InitialProduced();
    out := [];
    while |out| < n
      invariant |out| <= n
      invariant SysValid(sys)
      invariant Produced(out, sys.ctl.seeds, sys.ctl.cursor)
    {
      var v;
      ghost var before := sys;
      var effs, tried;
      v, sys, effs, tried := Serve(sys, from, picks[|out|]);
      if |before.ctl.seeds| > 0 {
        ProducedSeed(out, before.ctl.seeds, before.ctl.cursor);
      } else {
        ProducedPrime(out, before.ctl.cursor, v);
      }
      out := out + [v];
    }
    PrimeSequenceIncreasing(out);
    if n > 0 {
      PrimeSequenceComplete(out);
    }
  }
}

=== FILE: candidates.dfy ===
/**
 The candidate generator (`Candidates#each`, identical in all four controllers).
 Its whole state is one integer cursor that starts at 9 and is never itself
 yielded; every turn of the loop advances the cursor and yields its new value.
 Ruby's `first` and `find` both consume that same enumeration, so a controller
 that keeps its `Candidates` object keeps its place: here the cursor is a plain
 `int` threaded through the controller state.
 */
module Candidates {
  import opened Primes

  /** The cursor's initial value, set up so that the first step yields 11. */
  const Start: int := 9

  /** A candidate ends in the digit 1, 3, 7 or 9. */
  predicate Allowed(n: int) {
    n % 10 == 1 || n % 10 == 3 || n % 10 == 7 || n % 10 == 9
  }

  /** One turn of the generator loop: add 4 when the cursor ends in 3, else 2.
      From an allowed cursor this is exactly the next allowed integer. */
  function Step(cursor: int): (next: int)
    ensures cursor < next
    ensures Allowed(cursor) ==> Allowed(next)
    ensures Allowed(cursor) ==> forall x :: cursor < x < next ==> !Allowed(x)
  {
    cursor + (if cursor % 10 == 3 then 4 else 2)
  }

  /** The `k`-th value (from 0) a fresh generator yields. */
  function Nth(k: nat): (c: int)
    ensures Allowed(c) && c > Start
  {
    if k == 0 then Step(Start) else Step(Nth(k - 1))
  }

  /** A fresh generator yields 11, 13, 17, 19, 21 first: 21 ends in 1 and is
      yielded although it is composite (the shards reject it). */
  lemma FirstFive()
    ensures [Nth(0), Nth(1), Nth(2), Nth(3), Nth(4)] == [11, 13, 17, 19, 21]
  {
    assert Nth(0) == 11;
    assert Nth(1) == 13;
    assert Nth(2) == 17;
    assert Nth(3) == 19;
  }

  /** The generator's output is strictly increasing, so it never repeats or restarts. */
  lemma {:induction false} NthIncreasing(i: nat, j: nat)
    requires i < j
    ensures Nth(i) < Nth(j)
    decreases j
  {
    if i < j - 1 {
      NthIncreasing(i, j - 1);
    }
  }

  /** Nothing is skipped: every allowed integer above the start cursor is yielded. */
  lemma {:induction false} NthReachesAllowed(x: int) returns (k: nat)
    requires Allowed(x) && x > Start
    ensures Nth(k) == x
    decreases x
  {
    if x == 11 {
      k := 0;
    } else {
      var y := Predecessor(x);
      var j := NthReachesAllowed(y);
      k := j + 1;
    }
  }

  /** Every allowed value above 11 is one step from an allowed value above the start. */
  lemma Predecessor(x: int) returns (y: int)
    requires Allowed(x) && x > 11
    ensures Allowed(y) && Start < y < x && Step(y) == x
  {
    var q, r := x / 10, x % 10;
    if r == 1 {
      y := x - 2;
      ModUnique(y, 10, q - 1, 9);
    } else if r == 3 {
      y := x - 2;
      ModUnique(y, 10, q, 1);
    } else if r == 7 {
      y := x - 4;
      ModUnique(y, 10, q, 3);
    } else {
      y := x - 2;
      ModUnique(y, 10, q, 7);
    }
  }

  /** `cs` is a run of consecutive values the generator yields from `cursor`:
      the first is one step on, and each next one a step beyond the previous. */
  predicate Drawn(cursor: int, cs: seq<int>) {
    && |cs| > 0 && cs[0] == Step(cursor)
    && forall i :: 0 < i < |cs| ==> cs[i] == Step(cs[i - 1])
  }

  /** One more draw extends the run; the run is strictly increasing. */
  lemma DrawnNext(cursor: int, cs: seq<int>)
    requires Drawn(cursor, cs)
    ensures Drawn(cursor, cs + [Step(cs[|cs| - 1])])
    ensures forall i, j :: 0 <= i < j < |cs| ==> cs[i] < cs[j]
  {
    DrawnIncreasing(cursor, cs);
  }

  lemma {:induction false} DrawnIncreasing(cursor: int, cs: seq<int>)
    requires Drawn(cursor, cs)
    ensures forall i, j :: 0 <= i < j < |cs| ==> cs[i] < cs[j]
    decreases |cs|
  {
    if |cs| > 1 {
      var front := cs[..|cs| - 1];
      assert Drawn(cursor, front);
      DrawnIncreasing(cursor, front);
      forall i, j | 0 <= i < j < |cs| ensures cs[i] < cs[j] {
        if j < |cs| - 1 {
          assert cs[i] == front[i] && cs[j] == front[j];
        } else if i < j - 1 {
          assert cs[i] == front[i] && cs[j - 1] == front[j - 1];
        }
      }
    }
  }

  /** Integers above 5 that the generator skips are never prime: they are even
      or multiples of 5. */
  lemma SkippedNotPrime(n: int)
    requires n > 5 && !Allowed(n)
    ensures !IsPrime(n)
  {
    if n % 10 == 5 {
      assert n % 5 == 0;
    } else {
      assert n % 2 == 0;
    }
  }

  /** Stepping past a composite candidate passes no prime. */
  lemma PastComposite(lo: int, c: int)
    requires lo < c && c > 5 && Allowed(c) && !IsPrime(c) && NoPrimeIn(lo, c - 1)
    ensures NoPrimeIn(lo, Step(c) - 1)
  {
    var next := Step(c);
    forall q | lo < q <= next - 1 ensures !IsPrime(q) {
      if q > c {
        SkippedNotPrime(q);
      }
    }
  }

  /** A step from an allowed cursor never jumps over an allowed value. */
  lemma StepWithin(c: int, b: int)
    requires Allowed(c) && Allowed(b) && c < b
    ensures Step(c) <= b
  {
  }

  /** An allowed value below the next step from `c` is at most `c`. */
  lemma BelowStep(c: int, x: int)
    requires Allowed(c) && Allowed(x) && x < Step(c)
    ensures x <= c
  {
  }

  /** One step from an allowed cursor beyond 5 passes no prime. */
  lemma StepPassesNoPrime(c: int)
    requires Allowed(c) && c > 5
    ensures NoPrimeIn(c, Step(c) - 1)
  {
    forall q | c < q < Step(c) ensures !IsPrime(q) {
      SkippedNotPrime(q);
    }
  }
}

=== FILE: celluloid.dfy ===
/**
 The Celluloid variant (src/ruby/celluloid_base.rb). Messages are method calls:
 a shard offers `add` and `is_prime`, the controller offers `next`, which hands
 out the seeds first and then finds, among the generated candidates, the first
 one every shard's future resolves truthy on.
 */
module Celluloid {
  import opened Options
  import opened Primes
  import opened Candidates
  import opened Shard
  import opened Sieve

  /** `Model#add`: the new prime goes after every prime already held, which
      stay in place. */
  function Add(primes: seq<int>, newprime: int): (r: seq<int>)
    ensures |r| == |primes| + 1 && r[|primes|] == newprime && r[..|primes|] == primes
  {
    primes + [newprime]
  }

  /** `Model#is_prime`: `nil` (`None`) for an empty shard, otherwise whether no
      stored value other than the candidate divides it. */
  function IsPrimeAnswer(primes: seq<int>, candidate: int): (r: Option<bool>)
    requires NonZero(primes)
    ensures r == None <==> |primes| == 0
    ensures r == Some(true) <==> Query(primes, candidate) == Prime
    ensures r == Some(false) <==> Query(primes, candidate) == NotPrime
  {
    if |primes| == 0 then None
    else Some(NoneRejects(primes, candidate))
  }

  /** `f.value` as the condition of `all?`: `nil` and `false` both reject. */
  predicate Truthy(answer: Option<bool>) {
    answer == Some(true)
  }

  /** A shard that knows no primes answers `nil` to every candidate, so the pool
      accepts nothing while any shard is empty. */
  lemma EmptyShardRejects(shards: seq<seq<int>>, i: nat, c: int)
    requires ShardsNonZero(shards) && i < |shards| && |shards[i]| == 0
    ensures IsPrimeAnswer(shards[i], c) == None
    ensures !Accepts(shards, c)
  {
    assert Query(shards[i], c) == Unknown;
  }

  /** The pool's `all?` over the shards' answers is exactly `Accepts`. */
  lemma AllTruthyIsAccepts(shards: seq<seq<int>>, c: int)
    requires ShardsNonZero(shards)
    ensures (forall i :: 0 <= i < |shards| ==> Truthy(IsPrimeAnswer(shards[i], c))) <==> Accepts(shards, c)
  {
  }

  /** `Controller#next`. */
  method Next(pool: Pool, pick: nat) returns (pool': Pool, nextprime: int)
    requires PoolValid(pool) && pick < ShardCount
    ensures PoolValid(pool')
    ensures |pool.seeds| > 0 ==> nextprime == pool.seeds[0] && pool' == pool.(seeds := pool.seeds[1..])
    ensures |pool.seeds| == 0 ==>
      && LeastPrimeAbove(pool.cursor, nextprime)
      && pool' == pool.(cursor := nextprime, shards := Store(pool.shards, pick, nextprime))
  {
    if |pool.seeds| > 0 {
      ShiftSeed(pool.seeds, pool.cursor, pool.shards);
      return pool.(seeds := pool.seeds[1..]), pool.seeds[0];
    }
    nextprime := NextPrime(pool.shards, pool.cursor);
    AdvanceToPrime(pool.cursor, pool.shards, pick, nextprime);
    pool' := pool.(cursor := nextprime, shards := pool.shards[pick := Add(pool.shards[pick], nextprime)]);
  }

  /** `Primes.new.take(n)`: `n` consecutive calls to `next` on a fresh controller,
      the shard chosen for each new prime being `picks[k]`. The seeds come first;
      every later value is the least prime above the one before, so the output is
      the sequence of primes in order, without repetition. */
  method Take(n: nat, picks: seq<nat>) returns (out: seq<int>)
    requires |picks| >= n
    requires forall k :: 0 <= k < |picks| ==> picks[k] < ShardCount
    ensures |out| == n
    ensures PrimeSequence(out)
    ensures forall k :: 0 <= k < n ==> IsPrime(out[k])
    ensures forall i, j :: 0 <= i < j < n ==> out[i] < out[j]
    ensures n > 0 ==> forall p :: 2 <= p <= out[n - 1] && IsPrime(p) ==> p in out
  {
    var pool := InitialPool();
    InitialProgress();
    InitialProduced();
    out := [];
    while |out| < n
      invariant |out| <= n
      invariant PoolValid(pool)
      invariant Produced(out, pool.seeds, pool.cursor)
    {
      var v;
      ghost var before := pool;
      pool, v := Next(pool, picks[|out|]);
      if |before.seeds| > 0 {
        ProducedSeed(out, before.seeds, before.cursor);
      } else {
        ProducedPrime(out, before.cursor, v);
      }
      out := out + [v];
    }
    PrimeSequenceIncreasing(out);
    if n > 0 {
      PrimeSequenceComplete(out);
    }
  }
}

=== FILE: controllers.dfy ===
/**
 What the two event-driven Akka controllers (akka_nb.rb and
 nonblocking/sieve_actor_nonblocking.rb) share. Neither waits for its shards:
 a `:next` request stores the caller's reply channel and broadcasts the next
 candidate; the shards' votes arrive later as ordinary messages and are tallied
 in `@replies`. The controller is a state machine whose transitions return the
 messages it sends, as a sequence of effects.
 */
module Controllers {
  import opened Options
  import opened Primes
  import opened Candidates
  import opened Shard
  import opened Sieve

  /** An opaque reply channel (`self.getContext.channel`). */
  type Caller = nat

  /** A message the controller sends out. */
  datatype Effect =
    | AskShard(shard: nat, candidate: int)   // `m.tell [..., @candidate]` to every model
    | AddToShard(shard: nat, value: int)     // `@models[rand 4].tell [:add, nextprime]`
    | ReplyTo(to: Caller, value: int)        // `replySafe seed` or `@reply_channel.tell`

  /** The controller's instance variables: `@seeds`, the generator's cursor,
      `@candidate` (`None` is `nil`), `@replies` and `@reply_channel`. */
  datatype Controller = Controller(
    seeds: seq<int>,
    cursor: int,
    candidate: Option<int>,
    replies: seq<bool>,
    channel: Option<Caller>)

  /** The state `initialize` leaves: all seeds, a fresh generator, no round open. */
  function Init(): Controller {
    Controller(Seeds, Start, None, [], None)
  }

  /** Between messages: fewer tallied votes than shards, and an open round has a
      channel to answer on and is about the value the generator last yielded. */
  predicate Valid(s: Controller) {
    && |s.replies| < ShardCount
    && (s.candidate.Some? ==> s.channel.Some? && s.candidate.value == s.cursor)
  }

  /** No round is open: no candidate and no tallied votes. */
  predicate Idle(s: Controller) {
    s.candidate == None && s.replies == []
  }

  /** `@models.each { |m| m.tell [..., c] }`. */
  function Broadcast(c: int): (effs: seq<Effect>)
    ensures |effs| == ShardCount
    ensures forall i :: 0 <= i < ShardCount ==> effs[i] == AskShard(i, c)
  {
    seq(ShardCount, i requires 0 <= i < ShardCount => AskShard(i, c))
  }

  /** The broadcasts of the candidates `cs`, one after another. */
  function Broadcasts(cs: seq<int>): (effs: seq<Effect>)
    ensures |effs| == ShardCount * |cs|
    decreases |cs|
  {
    if |cs| == 0 then [] else Broadcasts(cs[..|cs| - 1]) + Broadcast(cs[|cs| - 1])
  }

  /** One more candidate adds its broadcast at the end. */
  lemma BroadcastsNext(cs: seq<int>, c: int)
    ensures Broadcasts(cs + [c]) == Broadcasts(cs) + Broadcast(c)
  {
    assert (cs + [c])[..|cs|] == cs;
  }

  /** `update_and_send_candidate`: `@candidates.first` takes exactly one step of
      the generator, the step's value becomes the open round's candidate, and it
      is sent to every shard; seeds, votes and channel are untouched. */
  function Advance(s: Controller): (r: (Controller, seq<Effect>))
    ensures s.cursor < r.0.cursor && (Allowed(s.cursor) ==> Allowed(r.0.cursor))
    ensures r.0 == s.(cursor := Step(s.cursor), candidate := Some(Step(s.cursor)))
    ensures r.1 == Broadcast(r.0.cursor)
  {
    var c := Step(s.cursor);
    (s.(cursor := c, candidate := Some(c)), Broadcast(c))
  }

  /** `@replies.all?`. */
  predicate AllTrue(bs: seq<bool>) {
    forall i :: 0 <= i < |bs| ==> bs[i]
  }

  /** Every shard has voted: on a unanimous `true` the candidate is stored in
      shard `pick` and sent to the waiting caller, and the round closes;
      otherwise the votes are dropped and the next candidate is broadcast. */
  function Conclude(s: Controller, pick: nat): (r: (Controller, seq<Effect>))
    requires s.candidate.Some? && s.channel.Some?
    ensures AllTrue(s.replies) ==>
      && r.0 == s.(candidate := None, replies := [])
      && r.1 == [AddToShard(pick, s.candidate.value), ReplyTo(s.channel.value, s.candidate.value)]
    ensures !AllTrue(s.replies) ==>
      && r.0 == s.(replies := [], cursor := Step(s.cursor), candidate := Some(Step(s.cursor)))
      && r.1 == Broadcast(Step(s.cursor))
  {
    var c := s.candidate.value;
    if AllTrue(s.replies) then
      (s.(candidate := None, replies := []), [AddToShard(pick, c), ReplyTo(s.channel.value, c)])
    else
      Advance(s.(replies := []))
  }

  /** Midway through a request from `from` above cursor `lo`: a round is open on
      the latest of the values `tried` drawn so far, every earlier one was
      composite, no prime was passed, and each draw has been broadcast. */
  predicate Searching(lo: int, ctl: Controller, from: Caller, tried: seq<int>, effs: seq<Effect>) {
    && Valid(ctl) && ctl.seeds == [] && ctl.replies == [] && ctl.channel == Some(from)
    && ctl.candidate.Some? && Start <= lo < ctl.cursor && Allowed(ctl.cursor) && NoPrimeIn(lo, ctl.cursor - 1)
    && Drawn(lo, tried) && tried[|tried| - 1] == ctl.cursor
    && (forall i :: 0 <= i < |tried| - 1 ==> !IsPrime(tried[i]))
    && effs == Broadcasts(tried)
  }

  /** The round about the first draw has just been broadcast. */
  lemma StartSearch(lo: int, s: Controller, from: Caller)
    requires Valid(s) && Idle(s) && s.seeds == [] && s.cursor == lo && Allowed(lo) && Start <= lo
    ensures var r := Advance(s.(channel := Some(from)));
      Searching(lo, r.0, from, [Step(lo)], r.1)
  {
    StepPassesNoPrime(lo);
    BroadcastsNext([], Step(lo));
  }

  /** A rejected composite: the search moves on to the next draw, broadcast in
      turn, still passing no prime. */
  lemma SearchOn(lo: int, ctl: Controller, from: Caller, tried: seq<int>, effs: seq<Effect>)
    requires Searching(lo, ctl, from, tried, effs) && !IsPrime(ctl.cursor)
    ensures var c := Step(ctl.cursor);
      Searching(lo, ctl.(cursor := c, candidate := Some(c)), from, tried + [c], effs + Broadcast(c))
  {
    PastComposite(lo, ctl.cursor);
    DrawnNext(lo, tried);
    BroadcastsNext(tried, Step(ctl.cursor));
  }

  /** Four shards, none empty, every stored value usable as a divisor. */
  predicate Filled(shards: seq<seq<int>>) {
    && |shards| == ShardCount
    && (forall i :: 0 <= i < |shards| ==> |shards[i]| > 0 && NonZero(shards[i]))
  }

  /** The controller together with the four shards it owns, between requests. */
  datatype System = System(ctl: Controller, shards: seq<seq<int>>)

  function InitialSystem(): System {
    System(Init(), InitialShards())
  }

  /** Between requests no round is open and the shards know exactly the primes
      up to the cursor. */
  predicate SysValid(sys: System) {
    && Valid(sys.ctl) && Idle(sys.ctl)
    && Progress(sys.ctl.seeds, sys.ctl.cursor, sys.shards)
  }

  lemma InitialSysValid()
    ensures SysValid(InitialSystem())
  {
    InitialProgress();
  }
}

=== FILE: nonblocking.dfy ===
/**
 The second non-blocking Akka variant
 (src/ruby/nonblocking/sieve_actor_nonblocking.rb). Messages are destructured as
 `(type, data) = msg`; a shard answers `[:isprime, bool]` without naming the
 candidate, and the controller counts every vote it receives, with no check
 that the vote belongs to the current round.
 */
module NonBlocking {
  import opened Options
  import opened Primes
  import opened Candidates
  import opened Shard
  import opened Sieve
  import opened Controllers

  /** A message to a shard, as `(type, data)`. */
  datatype ModelMsg = AddMsg(data: int) | IsPrimeMsg(data: int) | UnknownModelMsg

  /** What a shard sends back: nothing, `nil`, or `[:isprime, resp]`. */
  datatype ModelReply = Silent | NilReply | IsPrimeReply(prime: bool)

  /** `Model#onReceive`: `:add` appends unconditionally; `:isprime` answers `nil`
      while the shard is empty. */
  function ModelReceive(primes: seq<int>, msg: ModelMsg): (r: (seq<int>, ModelReply))
    requires msg.IsPrimeMsg? ==> NonZero(primes)
    ensures msg.AddMsg? ==> r == (primes + [msg.data], Silent)
    ensures msg.IsPrimeMsg? ==> r.0 == primes
    ensures msg.IsPrimeMsg? ==> (r.1 == NilReply <==> |primes| == 0)
    ensures msg.IsPrimeMsg? && |primes| > 0 ==> r.1 == IsPrimeReply(Query(primes, msg.data) == Prime)
    ensures msg.UnknownModelMsg? ==> r == (primes, Silent)
  {
    match msg
    case AddMsg(v) => (primes + [v], Silent)
    case IsPrimeMsg(c) =>
      if |primes| == 0 then (primes, NilReply)
      else (primes, IsPrimeReply(NoneRejects(primes, c)))
    case UnknownModelMsg => (primes, Silent)
  }

  /** A message to the controller: `[:next, _]` from a caller, a shard's vote
      `[:isprime, data]`, or anything else (including a bare `nil`, whose type
      is `nil`). */
  datatype ControllerMsg = NextMsg(from: Caller) | IsPrimeVote(data: bool) | Unrecognised

  /** Votes may arrive while no round is open; they are tallied like any other.
      Only a vote that would complete a tally with no round open is outside the
      model: the source would then store and send `nil` on four `true` votes,
      and otherwise broadcast a candidate no caller asked for. */
  predicate Deliverable(s: Controller, msg: ControllerMsg) {
    msg.IsPrimeVote? && |s.replies| + 1 == ShardCount ==> s.candidate.Some?
  }

  /** `Controller#onReceive`; `pick` is the value of `rand @models.size`. A vote
      is appended whatever candidate it was about; once `@replies.length` equals
      the number of shards the round concludes. */
  function Handle(s: Controller, msg: ControllerMsg, pick: nat): (r: (Controller, seq<Effect>))
    requires Valid(s) && Deliverable(s, msg) && pick < ShardCount
    ensures Valid(r.0)
    ensures msg.NextMsg? && |s.seeds| > 0 ==>
      r == (s.(seeds := s.seeds[1..]), [ReplyTo(msg.from, s.seeds[0])])
    ensures msg.NextMsg? && |s.seeds| == 0 ==>
      && r.0 == s.(cursor := Step(s.cursor), candidate := Some(Step(s.cursor)), channel := Some(msg.from))
      && r.1 == Broadcast(Step(s.cursor))
    ensures msg.Unrecognised? ==> r == (s, [])
    ensures msg.IsPrimeVote? && |s.replies| + 1 < ShardCount ==>
      r == (s.(replies := s.replies + [msg.data]), [])
    ensures msg.IsPrimeVote? && |s.replies| + 1 == ShardCount ==>
      r == Conclude(s.(replies := s.replies + [msg.data]), pick)
  {
    match msg
    case NextMsg(from) =>
      if |s.seeds| > 0 then (s.(seeds := s.seeds[1..]), [ReplyTo(from, s.seeds[0])])
      else Advance(s.(channel := Some(from)))
    case IsPrimeVote(b) =>
      var s1 := s.(replies := s.replies + [b]);
      if |s1.replies| == ShardCount then Conclude(s1, pick) else (s1, [])
    case Unrecognised => (s, [])
  }

  /** The controller handles the votes `msgs` of one open round in order; the
      effects are concatenated. */
  function Deliver(s: Controller, msgs: seq<ControllerMsg>, pick: nat): (r: (Controller, seq<Effect>))
    requires Valid(s) && s.candidate.Some? && pick < ShardCount
    requires |s.replies| + |msgs| <= ShardCount
    requires forall i :: 0 <= i < |msgs| ==> msgs[i].IsPrimeVote?
    ensures Valid(r.0)
    decreases |msgs|
  {
    if |msgs| == 0 then (s, [])
    else
      var first := Handle(s, msgs[0], pick);
      if |msgs| == 1 then first
      else
        var rest := Deliver(first.0, msgs[1..], pick);
        (rest.0, first.1 + rest.1)
  }

  /** The message a shard's answer becomes when it reaches the controller: a
      `nil` answer destructures to type `nil` and is ignored. */
  function Forward(reply: ModelReply): ControllerMsg
    requires !reply.Silent?
  {
    if reply.IsPrimeReply? then IsPrimeVote(reply.prime) else Unrecognised
  }

  function VoteMsgs(bs: seq<bool>): (msgs: seq<ControllerMsg>)
    ensures |msgs| == |bs|
    ensures forall i :: 0 <= i < |bs| ==> msgs[i] == IsPrimeVote(bs[i])
  {
    seq(|bs|, i requires 0 <= i < |bs| => IsPrimeVote(bs[i]))
  }

  /** The answers of the four shards to a broadcast of `c`, forwarded in shard
      order: shard `i` votes `true` exactly when its verdict on `c` is `Prime`. */
  function Votes(shards: seq<seq<int>>, c: int): (msgs: seq<ControllerMsg>)
    requires Filled(shards)
    ensures |msgs| == ShardCount
    ensures forall i :: 0 <= i < ShardCount ==> msgs[i] == IsPrimeVote(Query(shards[i], c) == Prime)
    ensures forall i :: 0 <= i < |msgs| ==> msgs[i].IsPrimeVote?
  {
    seq(ShardCount, i requires 0 <= i < ShardCount =>
      Forward(ModelReceive(shards[i], IsPrimeMsg(c)).1))
  }

  /** However the votes of one round are split between earlier and later
      messages, the controller stays silent until the last one and then concludes
      on all of them together. */
  lemma {:induction false} Tally(s: Controller, bs: seq<bool>, pick: nat)
    requires Valid(s) && s.candidate.Some? && pick < ShardCount
    requires |bs| >= 1 && |s.replies| + |bs| == ShardCount
    ensures Deliver(s, VoteMsgs(bs), pick) == Conclude(s.(replies := s.replies + bs), pick)
    decreases |bs|
  {
    var msgs := VoteMsgs(bs);
    var s1 := s.(replies := s.replies + [bs[0]]);
    if |bs| == 1 {
      assert [bs[0]] == bs;
    } else {
      assert Handle(s, msgs[0], pick) == (s1, []);
      assert msgs[1..] == VoteMsgs(bs[1..]);
      Tally(s1, bs[1..], pick);
      assert s1.replies + bs[1..] == s.replies + bs;
      var rest := Deliver(s1, msgs[1..], pick);
      assert [] + rest.1 == rest.1;
    }
  }

  /** One full round: with the round open and no votes yet, the four shards'
      answers make the controller store and return the candidate when every
      shard accepts it, and move on to the generator's next value otherwise. */
  lemma Round(s: Controller, shards: seq<seq<int>>, pick: nat)
    requires Valid(s) && s.candidate.Some? && s.replies == [] && Filled(shards) && pick < ShardCount
    ensures ShardsNonZero(shards)
    ensures var r := Deliver(s, Votes(shards, s.cursor), pick);
      Accepts(shards, s.cursor) ==>
        r == (s.(candidate := None), [AddToShard(pick, s.cursor), ReplyTo(s.channel.value, s.cursor)])
    ensures var r := Deliver(s, Votes(shards, s.cursor), pick);
      !Accepts(shards, s.cursor) ==>
        && r.0 == s.(cursor := Step(s.cursor), candidate := Some(Step(s.cursor)))
        && r.1 == Broadcast(Step(s.cursor))
  {
    var c := s.cursor;
    var bs := seq(ShardCount, i requires 0 <= i < ShardCount => Query(shards[i], c) == Prime);
    assert Votes(shards, c) == VoteMsgs(bs);
    Tally(s, bs, pick);
    assert [] + bs == bs;
    assert AllTrue(bs) <==> Accepts(shards, c);
  }

  /** A message the controller sends to a shard, as the shard receives it. */
  function Apply(shards: seq<seq<int>>, e: Effect): (r: seq<seq<int>>)
    requires e.AddToShard? && e.shard < |shards|
    ensures r == Store(shards, e.shard, e.value)
  {
    shards[e.shard := ModelReceive(shards[e.shard], AddMsg(e.value)).0]
  }

  // Serve, Search and Take repeat their AkkaNb namesakes line for line on
  // purpose: each binds this module's own Handle, Deliver, Votes and Round.

  /** One blocking `sendRequestReply [:next, 0]` from caller `from`, with the
      messages it sets off delivered one round at a time: the seeds come first,
      and after them the reply is the least prime above the generator's cursor,
      which is also stored in shard `pick`. `effs` is every message the
      controller sends meanwhile: one broadcast per candidate `tried`, each
      rejected one composite, then the store and the single reply to `from`. */
  method Serve(sys: System, from: Caller, pick: nat)
    returns (v: int, sys': System, effs: seq<Effect>, tried: seq<int>)
    requires SysValid(sys) && pick < ShardCount
    ensures SysValid(sys')
    ensures |sys.ctl.seeds| > 0 ==>
      && v == sys.ctl.seeds[0] && sys' == sys.(ctl := sys.ctl.(seeds := sys.ctl.seeds[1..]))
      && effs == [ReplyTo(from, v)] && tried == []
    ensures |sys.ctl.seeds| == 0 ==>
      && LeastPrimeAbove(sys.ctl.cursor, v)
      && sys'.ctl.cursor == v && sys'.ctl.seeds == []
      && sys'.shards == Store(sys.shards, pick, v)
    ensures |sys.ctl.seeds| == 0 ==>
      && Drawn(sys.ctl.cursor, tried) && tried[|tried| - 1] == v
      && (forall i :: 0 <= i < |tried| - 1 ==> !IsPrime(tried[i]))
      && effs == Broadcasts(tried) + [AddToShard(pick, v), ReplyTo(from, v)]
  {
    var first := Handle(sys.ctl, NextMsg(from), pick);
    if |sys.ctl.seeds| > 0 {
      ShiftSeed(sys.ctl.seeds, sys.ctl.cursor, sys.shards);
      return first.1[0].value, sys.(ctl := first.0), first.1, [];
    }
    StartSearch(sys.ctl.cursor, sys.ctl, from);
    var ctl, added;
    v, ctl, added, effs, tried := Search(sys.ctl.cursor, first.0, sys.shards, from, pick, first.1);
    AdvanceToPrime(sys.ctl.cursor, sys.shards, pick, v);
    sys' := System(ctl, added);
  }

  /** The rounds of one request past the seeds, from the first broadcast on:
      each rejected draw sets off the next, until a prime `v` is accepted,
      stored in shard `pick` and sent to `from`. */
  method Search(ghost lo: int, ctl0: Controller, shards: seq<seq<int>>, from: Caller, pick: nat,
                effs0: seq<Effect>)
    returns (v: int, ctl: Controller, added: seq<seq<int>>, effs: seq<Effect>, tried: seq<int>)
    requires Progress([], lo, shards) && pick < ShardCount
    requires Searching(lo, ctl0, from, [ctl0.cursor], effs0)
    ensures LeastPrimeAbove(lo, v) && Allowed(v)
    ensures ctl == Controller([], v, None, [], Some(from)) && added == Store(shards, pick, v)
    ensures Drawn(lo, tried) && tried[|tried| - 1] == v
    ensures forall i :: 0 <= i < |tried| - 1 ==> !IsPrime(tried[i])
    ensures effs == Broadcasts(tried) + [AddToShard(pick, v), ReplyTo(from, v)]
  {
    KnowsNonZero(shards, lo);
    ghost var bound := Escape(shards, lo);
    assert ctl0.cursor == [ctl0.cursor][0] == Step(lo);
    StepWithin(lo, bound);
    ctl := ctl0;
    added := shards;
    v := 0;
    tried := [ctl.cursor];
    effs := effs0;
    while ctl.candidate.Some?
      invariant Valid(ctl) && ctl.seeds == [] && ctl.replies == [] && ctl.channel == Some(from)
      invariant lo < ctl.cursor <= bound && Allowed(ctl.cursor) && NoPrimeIn(lo, ctl.cursor - 1)
      invariant ctl.candidate.Some? ==> Searching(lo, ctl, from, tried, effs)
      invariant ctl.candidate.None? ==>
        && v == ctl.cursor && lo < v && Allowed(v) && NoPrimeIn(lo, v - 1) && Accepts(shards, v)
        && ctl == Controller([], v, None, [], Some(from)) && added == Store(shards, pick, v)
        && Drawn(lo, tried) && tried[|tried| - 1] == v
        && (forall i :: 0 <= i < |tried| - 1 ==> !IsPrime(tried[i]))
        && effs == Broadcasts(tried) + [AddToShard(pick, v), ReplyTo(from, v)]
      decreases bound - ctl.cursor, if ctl.candidate.Some? then 1 else 0
    {
      var c := ctl.cursor;
      Round(ctl, shards, pick);
      var next := Deliver(ctl, Votes(shards, c), pick);
      if next.0.candidate.None? {
        added := Apply(shards, next.1[0]);
        v := next.1[1].value;
      } else {
        assert c != bound;
        StepWithin(c, bound);
        AcceptsIffPrime(shards, lo, c);
        SearchOn(lo, ctl, from, tried, effs);
        tried := tried + [Step(c)];
      }
      effs := effs + next.1;
      ctl := next.0;
    }
    AcceptsIffPrime(shards, lo, v);
  }

  /** `Primes.new(controller).take(n)`: `n` requests from one caller against a
      fresh system, shard `picks[k]` storing the `k`-th new prime. */
  method Take(n: nat, from: Caller, picks: seq<nat>) returns (out: seq<int>)
    requires |picks| >= n
    requires forall k :: 0 <= k < |picks| ==> picks[k] < ShardCount
    ensures |out| == n
    ensures PrimeSequence(out)
    ensures forall k :: 0 <= k < n ==> IsPrime(out[k])
    ensures forall i, j :: 0 <= i < j < n ==> out[i] < out[j]
    ensures n > 0 ==> forall p :: 2 <= p <= out[n - 1] && IsPrime(p) ==> p in out
  {
    var sys := InitialSystem();
    InitialSysValid();
    InitialProduced();
    out := [];
    while |out| < n
      invariant |out| <= n
      invariant SysValid(sys)
      invariant Produced(out, sys.ctl.seeds, sys.ctl.cursor)
    {
      var v;
      ghost var before := sys;
      var effs, tried;
      v, sys, effs, tried := Serve(sys, from, picks[|out|]);
      if |before.ctl.seeds| > 0 {
        ProducedSeed(out, before.ctl.seeds, before.ctl.cursor);
      } else {
        ProducedPrime(out, before.ctl.cursor, v);
      }
      out := out + [v];
    }
    PrimeSequenceIncreasing(out);
    if n > 0 {
      PrimeSequenceComplete(out);
    }
  }
}

=== FILE: options.dfy ===
/** Ruby's `nil`-able values. */
module Options {

  /** `None` stands for Ruby's `nil`. */
  datatype Option<+T> = None | Some(value: T)
}

=== FILE: primes.dfy ===
/**
 Primality and the divisibility facts the sieve's correctness argument rests on.
 All divisibility is stated with Dafny's `%`, which for a positive divisor agrees
 with Ruby's `Integer#%`.
 */
module Primes {

  /** `n` is prime: at least 2 and without a divisor strictly between 1 and `n`. */
  predicate IsPrime(n: int) {
    n >= 2 && forall d :: 2 <= d < n ==> n % d != 0
  }

  /** No prime lies in the half-open interval `(lo, hi]`. */
  predicate NoPrimeIn(lo: int, hi: int) {
    forall q :: lo < q <= hi ==> !IsPrime(q)
  }

  /** `p` is the least prime strictly greater than `lo`. */
  predicate LeastPrimeAbove(lo: int, p: int) {
    lo < p && IsPrime(p) && NoPrimeIn(lo, p - 1)
  }

  lemma SevenIsPrime()
    ensures IsPrime(7)
  {
    forall d | 2 <= d < 7 ensures 7 % d != 0 {
      assert d in {2, 3, 4, 5, 6};
    }
  }

  /** Euclidean division is unique: any decomposition `n == a * q + r` with
      `0 <= r < a` gives the remainder Dafny computes. */
  lemma ModUnique(n: int, a: int, q: int, r: int)
    requires a > 0 && 0 <= r < a && n == a * q + r
    ensures n % a == r
  {
    var q0, r0 := n / a, n % a;
    assert a * q + r == a * q0 + r0;
    if q > q0 {
      assert a * (q - q0) >= a by { MulAtLeast(a, q - q0); }
      assert false;
    } else if q < q0 {
      assert a * (q0 - q) >= a by { MulAtLeast(a, q0 - q); }
      assert false;
    }
  }

  lemma MulAtLeast(a: int, k: int)
    requires a > 0 && k >= 1
    ensures a * k >= a
  {
  }

  /** A multiple of `a` leaves remainder 0. */
  lemma MulMod(a: int, k: int)
    requires a > 0
    ensures (a * k) % a == 0
  {
    ModUnique(a * k, a, k, 0);
  }

  /** One more than a multiple of `a >= 2` leaves remainder 1. */
  lemma MulModPlusOne(a: int, k: int)
    requires a >= 2
    ensures (a * k + 1) % a == 1
  {
    ModUnique(a * k + 1, a, k, 1);
  }

  /** Divisibility is transitive. */
  lemma DividesTrans(a: int, b: int, c: int)
    requires a > 0 && b > 0
    requires b % a == 0 && c % b == 0
    ensures c % a == 0
  {
    var j, k := b / a, c / b;
    assert b == a * j;
    assert c == b * k;
    assert c == a * (j * k);
    MulMod(a, j * k);
  }

  /** A composite number has a prime factor below it. */
  lemma {:induction false} PrimeFactor(n: int) returns (q: int)
    requires n >= 2 && !IsPrime(n)
    ensures IsPrime(q) && q < n && n % q == 0
    decreases n
  {
    var d :| 2 <= d < n && n % d == 0;
    if IsPrime(d) {
      q := d;
    } else {
      q := PrimeFactor(d);
      DividesTrans(q, d, n);
    }
  }

  /** A prime-free gap below `b` extends the "least prime above" relation down to `a`. */
  lemma LeastAcrossGap(a: int, b: int, p: int)
    requires a <= b && NoPrimeIn(a, b) && LeastPrimeAbove(b, p)
    ensures LeastPrimeAbove(a, p)
  {
  }
}

=== FILE: shard.dfy ===
/**
 A shard (the `Model` actor): an append-only list of known primes and the
 tri-state verdict every variant computes from it. The per-variant message
 encodings of that verdict live with the variants; this module holds the one
 decision they share.
 */
module Shard {
  import opened Primes

  /** `Unknown` is the `nil` answer of a shard that knows no primes yet. */
  datatype Verdict = Unknown | Prime | NotPrime

  /** Every stored value can be used as a divisor (Ruby raises on `c % 0`). */
  predicate NonZero(primes: seq<int>) {
    forall i :: 0 <= i < |primes| ==> primes[i] != 0
  }

  /** The block given to `none?`: stored value `p` shows that `c` is composite.
      A stored prime never rejects itself. */
  predicate Rejects(p: int, c: int)
    requires p != 0
  {
    c != p && c % p == 0
  }

  /** `primes.none? { |p| c != p and c % p == 0 }`, walked front to back. */
  function NoneRejects(primes: seq<int>, c: int): (ok: bool)
    requires NonZero(primes)
    ensures ok <==> forall i :: 0 <= i < |primes| ==> !Rejects(primes[i], c)
  {
    if |primes| == 0 then true
    else !Rejects(primes[0], c) && NoneRejects(primes[1..], c)
  }

  /** The verdict of a shard holding `primes` on candidate `c`. */
  function Query(primes: seq<int>, c: int): (v: Verdict)
    requires NonZero(primes)
    ensures v == Unknown <==> |primes| == 0
    ensures v == Prime <==> |primes| > 0 && forall i :: 0 <= i < |primes| ==> !Rejects(primes[i], c)
    ensures v == NotPrime <==> exists i :: 0 <= i < |primes| && Rejects(primes[i], c)
  {
    if |primes| == 0 then Unknown
    else if NoneRejects(primes, c) then Prime
    else NotPrime
  }

  /** Every stored value is a prime. */
  predicate AllPrime(primes: seq<int>) {
    forall i :: 0 <= i < |primes| ==> IsPrime(primes[i])
  }

  /** A shard whose values are primes accepts every prime, including each stored
      prime queried on itself (the explicit self-match exception). */
  lemma PrimeAccepted(primes: seq<int>, c: int)
    requires AllPrime(primes) && |primes| > 0 && IsPrime(c)
    ensures NonZero(primes) && Query(primes, c) == Prime
  {
    forall i | 0 <= i < |primes|
      ensures !Rejects(primes[i], c)
    {
      var p := primes[i];
      if p < c {
        assert c % p != 0;
      } else if p > c {
        assert 0 <= c < p;
        ModUnique(c, p, 0, c);
      }
    }
  }

  /** Appending a value never turns a rejection into acceptance: knowledge only
      grows, and so does the set of candidates a shard rejects. */
  lemma AddKeepsRejection(primes: seq<int>, v: int, c: int)
    requires NonZero(primes) && v != 0
    requires Query(primes, c) == NotPrime
    ensures NonZero(primes + [v]) && Query(primes + [v], c) == NotPrime
  {
    var i :| 0 <= i < |primes| && Rejects(primes[i], c);
    assert (primes + [v])[i] == primes[i];
  }

  /** The shard seeded with 2, 3, 5, 7: a candidate is accepted exactly when it is
      one of the seeds or is divisible by none of them. */
  lemma SeedShardVerdict(c: int)
    ensures NonZero([2, 3, 5, 7])
    ensures Query([2, 3, 5, 7], c) == Prime <==>
      c in {2, 3, 5, 7} || (c % 2 != 0 && c % 3 != 0 && c % 5 != 0 && c % 7 != 0)
    ensures Query([2, 3, 5, 7], c) != Unknown
  {
    var s := [2, 3, 5, 7];
    assert forall i :: 0 <= i < |s| ==> s[i] in {2, 3, 5, 7};
    if c in {2, 3, 5, 7} {
      assert IsPrime(2) && IsPrime(3) && IsPrime(5);
      SevenIsPrime();
      PrimeAccepted(s, c);
    } else if c % 2 == 0 {
      assert Rejects(s[0], c);
    } else if c % 3 == 0 {
      assert Rejects(s[1], c);
    } else if c % 5 == 0 {
      assert Rejects(s[2], c);
    } else if c % 7 == 0 {
      assert Rejects(s[3], c);
    }
  }

  /** Every multiple `k * seed` with `k >= 2` of a seed is rejected. */
  lemma SeedMultipleRejected(k: int, i: nat)
    requires k >= 2 && i < 4
    ensures NonZero([2, 3, 5, 7])
    ensures Query([2, 3, 5, 7], k * [2, 3, 5, 7][i]) == NotPrime
  {
    var s := [2, 3, 5, 7];
    var p := s[i];
    MulMod(p, k);
    assert k * p == p * k;
    assert k * p != p by { MulAtLeast(p, k - 1); }
    assert Rejects(s[i], k * p);
  }
}

=== FILE: sieve.dfy ===
/**
 What the four controllers share: four shards seeded with 2, 3, 5, 7, the
 unanimity rule a candidate must pass, the "find the first accepted candidate"
 search of the blocking controllers, and the invariant that makes the accepted
 candidate the next prime: together the shards hold exactly the primes up to
 the generator's cursor.
 */
module Sieve {
  import opened Primes
  import opened Candidates
  import opened Shard

  /** `@models` always has four entries. */
  const ShardCount: nat := 4

  /** `@seeds`, handed out before any shard is consulted. */
  const Seeds: seq<int> := [2, 3, 5, 7]

  /** Construction tells shard `i` to add seed `i`; mailbox order delivers those
      adds before any query, so the model starts from the filled shards. */
  function InitialShards(): (shards: seq<seq<int>>)
    ensures |shards| == ShardCount
    ensures forall i :: 0 <= i < ShardCount ==> shards[i] == [Seeds[i]]
  {
    seq(ShardCount, i requires 0 <= i < ShardCount => [Seeds[i]])
  }

  /** The seeds not yet handed out are a suffix of `Seeds` (`@seeds.shift`). */
  predicate SeedsLeft(seeds: seq<int>) {
    |seeds| <= |Seeds| && seeds == Seeds[|Seeds| - |seeds|..]
  }

  /** Some shard holds `p`. */
  predicate Holds(shards: seq<seq<int>>, p: int) {
    exists i :: 0 <= i < |shards| && p in shards[i]
  }

  /** Every shard's values can be used as divisors. */
  predicate ShardsNonZero(shards: seq<seq<int>>) {
    forall i :: 0 <= i < |shards| ==> NonZero(shards[i])
  }

  /** Every shard answers `Prime`; an `Unknown` answer counts against the candidate. */
  predicate Accepts(shards: seq<seq<int>>, c: int)
    requires ShardsNonZero(shards)
  {
    forall i :: 0 <= i < |shards| ==> Query(shards[i], c) == Prime
  }

  /** `@models[pick].tell [:add, v]`: shard `pick` appends `v`. */
  function Store(shards: seq<seq<int>>, pick: nat, v: int): (r: seq<seq<int>>)
    requires pick < |shards|
    ensures |r| == |shards|
    ensures r[pick] == shards[pick] + [v]
    ensures forall i :: 0 <= i < |shards| && i != pick ==> r[i] == shards[i]
  {
    shards[pick := shards[pick] + [v]]
  }

  /** The state of a blocking controller (sieve_actor.rb, celluloid_base.rb):
      seeds left, generator cursor and the contents of the shards it owns. */
  datatype Pool = Pool(seeds: seq<int>, cursor: int, shards: seq<seq<int>>)

  function InitialPool(): Pool {
    Pool(Seeds, Start, InitialShards())
  }

  predicate PoolValid(pool: Pool) {
    Progress(pool.seeds, pool.cursor, pool.shards)
  }

  /** The shards know every prime up to `cursor` and nothing else: no shard is
      empty, every held value is a prime not above `cursor`, and every prime up
      to `cursor` is held by some shard. */
  predicate Knows(shards: seq<seq<int>>, cursor: int) {
    && (forall i :: 0 <= i < |shards| ==> |shards[i]| > 0 && AllPrime(shards[i]))
    && (forall i, j :: 0 <= i < |shards| && 0 <= j < |shards[i]| ==> shards[i][j] <= cursor)
    && (forall p :: 2 <= p <= cursor && IsPrime(p) ==> Holds(shards, p))
  }

  /** The state every controller keeps between requests. */
  predicate Progress(seeds: seq<int>, cursor: int, shards: seq<seq<int>>) {
    && SeedsLeft(seeds)
    && |shards| == ShardCount
    && Start <= cursor && Allowed(cursor)
    && Knows(shards, cursor)
  }

  lemma KnowsNonZero(shards: seq<seq<int>>, cursor: int)
    requires Knows(shards, cursor)
    ensures ShardsNonZero(shards)
  {
    forall i | 0 <= i < |shards| ensures NonZero(shards[i]) {
      assert AllPrime(shards[i]);
    }
  }

  /** A fresh controller: all four seeds left, the cursor at its start, and the
      seeded shards know exactly the primes up to 9. */
  lemma InitialProgress()
    ensures Progress(Seeds, Start, InitialShards())
  {
    var shards := InitialShards();
    assert shards == [[2], [3], [5], [7]];
    SevenIsPrime();
    assert 4 % 2 == 0 && 6 % 2 == 0 && 8 % 2 == 0 && 9 % 3 == 0;
    assert !IsPrime(4) && !IsPrime(6) && !IsPrime(8) && !IsPrime(9);
    forall p | 2 <= p <= Start && IsPrime(p) ensures Holds(shards, p) {
      if p == 2 {
        assert p in shards[0];
      } else if p == 3 {
        assert p in shards[1];
      } else if p == 5 {
        assert p in shards[2];
      } else if p == 7 {
        assert p in shards[3];
      }
    }
  }

  /** While the shards know exactly the primes up to `lo` and nothing prime lies
      between `lo` and `c`, the pool accepts `c` exactly when `c` is prime: every
      prime factor of a composite `c` is at most `lo`, so some shard holds it. */
  lemma AcceptsIffPrime(shards: seq<seq<int>>, lo: int, c: int)
    requires Knows(shards, lo) && Start <= lo < c && NoPrimeIn(lo, c - 1)
    ensures ShardsNonZero(shards)
    ensures Accepts(shards, c) <==> IsPrime(c)
  {
    KnowsNonZero(shards, lo);
    if IsPrime(c) {
      forall i | 0 <= i < |shards| ensures Query(shards[i], c) == Prime {
        PrimeAccepted(shards[i], c);
      }
    } else {
      var q := PrimeFactor(c);
      assert q <= lo;
      var i :| 0 <= i < |shards| && q in shards[i];
      var j :| 0 <= j < |shards[i]| && shards[i][j] == q;
      assert Rejects(shards[i][j], c);
      assert Query(shards[i], c) == NotPrime;
    }
  }

  /** Storing the least prime above `lo` in any one shard moves the knowledge
      boundary from `lo` up to that prime. */
  lemma StoreNextPrime(shards: seq<seq<int>>, lo: int, c: int, pick: nat)
    requires Knows(shards, lo) && LeastPrimeAbove(lo, c) && pick < |shards|
    ensures Knows(Store(shards, pick, c), c)
  {
    var r := Store(shards, pick, c);
    forall i | 0 <= i < |r| ensures |r[i]| > 0 && AllPrime(r[i]) {
      assert AllPrime(shards[i]);
      if i == pick {
        assert forall j :: 0 <= j < |shards[i]| ==> r[i][j] == shards[i][j];
      }
    }
    forall p | 2 <= p <= c && IsPrime(p) ensures Holds(r, p) {
      if p == c {
        assert p in r[pick];
      } else {
        assert p <= lo;
        var i :| 0 <= i < |shards| && p in shards[i];
        var j :| 0 <= j < |shards[i]| && shards[i][j] == p;
        assert r[i][j] == p;
      }
    }
  }

  /** All values held by the pool, shard after shard. */
  function Flatten(shards: seq<seq<int>>): seq<int> {
    if |shards| == 0 then [] else shards[0] + Flatten(shards[1..])
  }

  lemma {:induction false} FlattenHolds(shards: seq<seq<int>>, p: int)
    ensures p in Flatten(shards) <==> Holds(shards, p)
    decreases |shards|
  {
    if |shards| > 0 {
      FlattenHolds(shards[1..], p);
      if Holds(shards[1..], p) {
        var i :| 0 <= i < |shards[1..]| && p in shards[1..][i];
        assert p in shards[i + 1];
      }
      if Holds(shards, p) {
        var i :| 0 <= i < |shards| && p in shards[i];
        if i > 0 {
          assert p in shards[1..][i - 1];
        }
      }
    }
  }

  function Product(s: seq<int>): int {
    if |s| == 0 then 1 else s[0] * Product(s[1..])
  }

  /** A product of factors at least 2 is positive and a multiple of each factor. */
  lemma {:induction false} ProductMultiple(s: seq<int>)
    requires forall i :: 0 <= i < |s| ==> s[i] >= 2
    ensures Product(s) >= 1
    ensures forall i :: 0 <= i < |s| ==> Product(s) % s[i] == 0
    decreases |s|
  {
    if |s| > 0 {
      var rest := Product(s[1..]);
      ProductMultiple(s[1..]);
      assert Product(s) == s[0] * rest;
      MulAtLeast(s[0], rest);
      forall i | 0 <= i < |s| ensures Product(s) % s[i] == 0 {
        MulMod(s[0], rest);
        if i > 0 {
          assert rest % s[1..][i - 1] == 0;
          MulMod(rest, s[0]);
          assert s[0] * rest == rest * s[0];
          DividesTrans(s[i], rest, Product(s));
        }
      }
    }
  }

  /** Every value the pool holds is a prime not above the cursor. */
  lemma FlattenPrimes(shards: seq<seq<int>>, cursor: int)
    requires Knows(shards, cursor)
    ensures forall k :: 0 <= k < |Flatten(shards)| ==> IsPrime(Flatten(shards)[k]) && Flatten(shards)[k] <= cursor
  {
    var s := Flatten(shards);
    forall k | 0 <= k < |s| ensures IsPrime(s[k]) && s[k] <= cursor {
      FlattenHolds(shards, s[k]);
      var i :| 0 <= i < |shards| && s[k] in shards[i];
      var j :| 0 <= j < |shards[i]| && shards[i][j] == s[k];
      assert AllPrime(shards[i]);
    }
  }

  /** A multiple of every element of `s` (all at least 2) that is at least `n`. */
  lemma MultipleOfAll(s: seq<int>, n: int) returns (m: int)
    requires forall k :: 0 <= k < |s| ==> s[k] >= 2
    requires n >= 1
    ensures m >= n
    ensures forall k :: 0 <= k < |s| ==> m % s[k] == 0
  {
    ProductMultiple(s);
    var P := Product(s);
    m := P * n;
    MulMod(P, n);
    MulAtLeast(n, P);
    assert n * P == m;
    forall k | 0 <= k < |s| ensures m % s[k] == 0 {
      DividesTrans(s[k], P, m);
    }
  }

  lemma TenDivides(m: int)
    requires m % 2 == 0 && m % 5 == 0
    ensures m % 10 == 0
  {
  }

  /** A common multiple of all held primes, at least `cursor` and ending in 0. */
  lemma CommonMultiple(shards: seq<seq<int>>, cursor: int) returns (m: int)
    requires Knows(shards, cursor) && Start <= cursor
    ensures m >= cursor && m % 10 == 0
    ensures forall p | p in Flatten(shards) :: p >= 2 && m % p == 0
  {
    var s := Flatten(shards);
    FlattenPrimes(shards, cursor);
    m := MultipleOfAll(s, cursor);
    assert IsPrime(2) && IsPrime(5);
    FlattenHolds(shards, 2);
    FlattenHolds(shards, 5);
    var i2 :| 0 <= i2 < |s| && s[i2] == 2;
    var i5 :| 0 <= i5 < |s| && s[i5] == 5;
    TenDivides(m);
  }

  /** Euclid's argument, adapted to the generator: a number one past a multiple
      of every held prime ends in 1 (2 and 5 are held), lies beyond the cursor and
      is accepted by every shard. It bounds the find-first search. */
  lemma Escape(shards: seq<seq<int>>, cursor: int) returns (bound: int)
    requires Knows(shards, cursor) && Start <= cursor
    ensures ShardsNonZero(shards)
    ensures cursor < bound && Allowed(bound) && Accepts(shards, bound)
  {
    KnowsNonZero(shards, cursor);
    var m := CommonMultiple(shards, cursor);
    bound := m + 1;
    OnePastMultiple(10, m);
    forall i | 0 <= i < |shards| ensures Query(shards[i], bound) == Prime {
      forall j | 0 <= j < |shards[i]| ensures !Rejects(shards[i][j], bound) {
        var p := shards[i][j];
        FlattenHolds(shards, p);
        OnePastMultiple(p, m);
      }
    }
  }

  lemma OnePastMultiple(p: int, m: int)
    requires p >= 2 && m % p == 0
    ensures (m + 1) % p == 1
  {
    MulModPlusOne(p, m / p);
  }

  /** A rejected candidate moves the search on without passing a prime. */
  lemma RejectedStep(shards: seq<seq<int>>, cursor: int, c: int)
    requires Knows(shards, cursor) && Start <= cursor < c && NoPrimeIn(cursor, c - 1)
    requires Allowed(c) && ShardsNonZero(shards) && !Accepts(shards, c)
    ensures NoPrimeIn(cursor, Step(c) - 1)
  {
    AcceptsIffPrime(shards, cursor, c);
    PastComposite(cursor, c);
  }

  /** The rejected prefix of the search grows by one step. */
  lemma RejectedPrefix(shards: seq<seq<int>>, cursor: int, c: int)
    requires ShardsNonZero(shards) && Allowed(c)
    requires forall x :: cursor < x < c && Allowed(x) ==> !Accepts(shards, x)
    requires !Accepts(shards, c)
    ensures forall x :: cursor < x < Step(c) && Allowed(x) ==> !Accepts(shards, x)
  {
    forall x | cursor < x < Step(c) && Allowed(x) ensures !Accepts(shards, x) {
      BelowStep(c, x);
    }
  }

  /** The blocking controllers' `@candidates.find { |c| all shards say true }`:
      the first value the generator yields beyond `cursor` that every shard
      accepts. With the pool knowing the primes up to `cursor`, that is the least
      prime above it. */
  method FindFirst(shards: seq<seq<int>>, cursor: int) returns (c: int)
    requires Knows(shards, cursor) && Start <= cursor && Allowed(cursor)
    ensures ShardsNonZero(shards)
    ensures cursor < c && Allowed(c) && Accepts(shards, c)
    ensures forall x :: cursor < x < c && Allowed(x) ==> !Accepts(shards, x)
    ensures LeastPrimeAbove(cursor, c)
  {
    KnowsNonZero(shards, cursor);
    ghost var bound := Escape(shards, cursor);
    c := Step(cursor);
    StepPassesNoPrime(cursor);
    while !Accepts(shards, c)
      invariant cursor < c <= bound && Allowed(c)
      invariant forall x :: cursor < x < c && Allowed(x) ==> !Accepts(shards, x)
      invariant NoPrimeIn(cursor, c - 1)
      decreases bound - c
    {
      assert c != bound;
      StepWithin(c, bound);
      RejectedStep(shards, cursor, c);
      RejectedPrefix(shards, cursor, c);
      c := Step(c);
    }
    AcceptsIffPrime(shards, cursor, c);
  }

  /** What a blocking controller takes from the search: the least prime above
      the cursor, itself a value the generator yields. */
  method NextPrime(shards: seq<seq<int>>, cursor: int) returns (c: int)
    requires Knows(shards, cursor) && Start <= cursor && Allowed(cursor)
    ensures LeastPrimeAbove(cursor, c) && Allowed(c)
  {
    c := FindFirst(shards, cursor);
  }

  /** Handing out a seed keeps the controller's state valid. */
  lemma ShiftSeed(seeds: seq<int>, cursor: int, shards: seq<seq<int>>)
    requires Progress(seeds, cursor, shards) && |seeds| > 0
    ensures Progress(seeds[1..], cursor, shards)
  {
    var k := |Seeds| - |seeds|;
    assert seeds[1..] == Seeds[k + 1..];
  }

  /** Storing the least prime above the cursor and moving the cursor onto it
      keeps the controller's state valid, once the seeds are gone. */
  lemma AdvanceToPrime(cursor: int, shards: seq<seq<int>>, pick: nat, c: int)
    requires Progress([], cursor, shards) && pick < ShardCount
    requires LeastPrimeAbove(cursor, c) && Allowed(c)
    ensures Progress([], c, Store(shards, pick, c))
  {
    StoreNextPrime(shards, cursor, c, pick);
  }

  /** `out` is the start of the sequence of primes in increasing order: the seeds
      first, then each value the least prime above the one before it. */
  predicate PrimeSequence(out: seq<int>) {
    && (forall k :: 0 <= k < |out| && k < |Seeds| ==> out[k] == Seeds[k])
    && (forall k :: |Seeds| <= k < |out| ==> LeastPrimeAbove(out[k - 1], out[k]))
  }

  lemma SeedsArePrime()
    ensures forall k :: 0 <= k < |Seeds| ==> IsPrime(Seeds[k])
  {
    SevenIsPrime();
    assert IsPrime(2) && IsPrime(3) && IsPrime(5);
  }

  /** Such a sequence consists of primes and never repeats a value. */
  lemma {:induction false} PrimeSequenceIncreasing(out: seq<int>)
    requires PrimeSequence(out)
    ensures forall k :: 0 <= k < |out| ==> IsPrime(out[k])
    ensures forall i, j :: 0 <= i < j < |out| ==> out[i] < out[j]
    decreases |out|
  {
    if |out| > 0 {
      var n := |out| - 1;
      var front := out[..n];
      assert PrimeSequence(front) by {
        forall k | |Seeds| <= k < |front| ensures LeastPrimeAbove(front[k - 1], front[k]) {
          assert front[k - 1] == out[k - 1] && front[k] == out[k];
        }
      }
      PrimeSequenceIncreasing(front);
      SeedsArePrime();
      forall k | 0 <= k < |out| ensures IsPrime(out[k]) {
        if k < n {
          assert out[k] == front[k];
        } else if n >= |Seeds| {
          assert LeastPrimeAbove(out[n - 1], out[n]);
        } else {
          assert out[k] == Seeds[k];
        }
      }
      forall i, j | 0 <= i < j < |out| ensures out[i] < out[j] {
        if j < n {
          assert out[i] == front[i] && out[j] == front[j];
        } else if n >= |Seeds| {
          assert LeastPrimeAbove(out[n - 1], out[n]);
          if i < n - 1 {
            assert out[i] == front[i] && out[n - 1] == front[n - 1];
          }
        } else {
          assert out[i] == Seeds[i] && out[j] == Seeds[j];
        }
      }
    }
  }

  /** Nor does such a sequence skip a prime: every prime up to its last value
      occurs in it, so it is exactly the list of the first `|out|` primes. */
  lemma {:induction false} PrimeSequenceComplete(out: seq<int>)
    requires PrimeSequence(out) && |out| > 0
    ensures forall p :: 2 <= p <= out[|out| - 1] && IsPrime(p) ==> p in out
    decreases |out|
  {
    var n := |out| - 1;
    if n < |Seeds| {
      assert 4 % 2 == 0 && 6 % 2 == 0;
      assert !IsPrime(4) && !IsPrime(6);
      forall p | 2 <= p <= out[n] && IsPrime(p) ensures p in out {
        assert out[n] == Seeds[n];
        if p == 2 {
          assert out[0] == p;
        } else if p == 3 {
          assert out[1] == p;
        } else if p == 5 {
          assert out[2] == p;
        } else if p == 7 {
          assert out[3] == p;
        }
      }
    } else {
      var front := out[..n];
      assert PrimeSequence(front) by {
        forall k | |Seeds| <= k < |front| ensures LeastPrimeAbove(front[k - 1], front[k]) {
          assert front[k - 1] == out[k - 1] && front[k] == out[k];
        }
      }
      PrimeSequenceComplete(front);
      assert LeastPrimeAbove(out[n - 1], out[n]);
      forall p | 2 <= p <= out[n] && IsPrime(p) ensures p in out {
        if p <= out[n - 1] {
          assert front[n - 1] == out[n - 1];
          assert p in front;
        } else {
          assert p == out[n];
        }
      }
    }
  }

  /** What a client has been given so far, against the controller's seeds left
      and cursor: the seeds in order while any are left; afterwards no prime lies
      between the last value given and the cursor. */
  predicate Produced(out: seq<int>, seeds: seq<int>, cursor: int) {
    && PrimeSequence(out)
    && (|out| < |Seeds| ==> seeds == Seeds[|out|..] && cursor == Start)
    && (|out| >= |Seeds| ==> seeds == [] && out[|out| - 1] <= cursor && NoPrimeIn(out[|out| - 1], cursor))
  }

  lemma InitialProduced()
    ensures Produced([], Seeds, Start)
  {
  }

  lemma ProducedSeed(out: seq<int>, seeds: seq<int>, cursor: int)
    requires Produced(out, seeds, cursor) && |seeds| > 0
    ensures Produced(out + [seeds[0]], seeds[1..], cursor)
  {
    var out' := out + [seeds[0]];
    assert |out| < |Seeds|;
    assert out'[|out|] == Seeds[|out|];
    if |out'| == |Seeds| {
      assert 8 % 2 == 0 && 9 % 3 == 0;
      assert !IsPrime(8) && !IsPrime(9);
      forall q | 7 < q <= Start ensures !IsPrime(q) {
        assert q == 8 || q == 9;
      }
    }
  }

  lemma ProducedPrime(out: seq<int>, cursor: int, v: int)
    requires Produced(out, [], cursor) && LeastPrimeAbove(cursor, v)
    ensures Produced(out + [v], [], v)
  {
    var out' := out + [v];
    LeastAcrossGap(out[|out| - 1], cursor, v);
    assert out'[|out| - 1] == out[|out| - 1];
  }
}

=== FILE: sieve_actor.dfy ===
/**
 The blocking Akka variant (src/ruby/sieve_actor.rb). On `:next` the controller
 hands out the seeds first; after that it runs `@candidates.find`, asking every
 shard about each candidate and waiting for all answers, stores the first
 candidate that every shard calls prime in one shard, and replies with it.
 */
module SieveActor {
  import opened Options
  import opened Primes
  import opened Candidates
  import opened Shard
  import opened Sieve

  /** A message to a shard, destructured as `(type, data) = msg`. */
  datatype ModelMsg = AddData(data: int) | IsPrimeQuery(data: int) | OtherModelMsg

  /** What a shard sends back: nothing, `nil`, or a bare boolean. */
  datatype ModelReply = Silent | NilReply | BoolReply(prime: bool)

  /** `Model#onReceive`. */
  function ModelReceive(primes: seq<int>, msg: ModelMsg): (r: (seq<int>, ModelReply))
    requires msg.IsPrimeQuery? ==> NonZero(primes)
    ensures msg.AddData? ==> r.0 == primes + [msg.data] && r.1 == Silent
    ensures !msg.AddData? ==> r.0 == primes
    ensures msg.IsPrimeQuery? ==> (r.1 == NilReply <==> |primes| == 0)
    ensures msg.IsPrimeQuery? ==> (r.1 == BoolReply(true) <==> Query(primes, msg.data) == Prime)
    ensures msg.IsPrimeQuery? ==> (r.1 == BoolReply(false) <==> Query(primes, msg.data) == NotPrime)
    ensures msg.OtherModelMsg? ==> r.1 == Silent
  {
    match msg
    case AddData(v) => (primes + [v], Silent)
    case IsPrimeQuery(c) =>
      if |primes| == 0 then (primes, NilReply)
      else (primes, BoolReply(NoneRejects(primes, c)))
    case OtherModelMsg => (primes, Silent)
  }

  /** The vote `f.result.get` a reply contributes to `all?`: only `true` is truthy. */
  predicate Truthy(reply: ModelReply) {
    reply == BoolReply(true)
  }

  /** A message to the controller: `case msg when :next`, anything else ignored. */
  datatype ControllerMsg = NextMsg | OtherMsg

  /** `Controller#onReceive`: the reply is `None` when nothing is sent back. */
  method Receive(pool: Pool, msg: ControllerMsg, pick: nat) returns (pool': Pool, reply: Option<int>)
    requires PoolValid(pool) && pick < ShardCount
    ensures PoolValid(pool')
    ensures msg.OtherMsg? ==> pool' == pool && reply == None
    ensures msg.NextMsg? && |pool.seeds| > 0 ==>
      reply == Some(pool.seeds[0]) && pool' == pool.(seeds := pool.seeds[1..])
    ensures msg.NextMsg? && |pool.seeds| == 0 ==>
      && reply.Some?
      && LeastPrimeAbove(pool.cursor, reply.value)
      && pool' == pool.(cursor := reply.value, shards := Store(pool.shards, pick, reply.value))
  {
    if msg.OtherMsg? {
      return pool, None;
    }
    if |pool.seeds| > 0 {
      ShiftSeed(pool.seeds, pool.cursor, pool.shards);
      return pool.(seeds := pool.seeds[1..]), Some(pool.seeds[0]);
    }
    var c := NextPrime(pool.shards, pool.cursor);
    AdvanceToPrime(pool.cursor, pool.shards, pick, c);
    var added := ModelReceive(pool.shards[pick], AddData(c)).0;
    pool' := pool.(cursor := c, shards := pool.shards[pick := added]);
    reply := Some(c);
  }

  /** What the find loop sees of one shard: its vote on `c` is truthy exactly
      when the shard's verdict is `Prime`; an empty shard's `nil` rejects. */
  lemma VoteIsVerdict(primes: seq<int>, c: int)
    requires NonZero(primes)
    ensures Truthy(ModelReceive(primes, IsPrimeQuery(c)).1) <==> Query(primes, c) == Prime
    ensures |primes| == 0 ==> !Truthy(ModelReceive(primes, IsPrimeQuery(c)).1)
  {
  }

  /** `Primes.new(controller).take(n)`: `n` `:next` requests against a fresh
      controller, shard `picks[k]` storing the `k`-th new prime. */
  method Take(n: nat, picks: seq<nat>) returns (out: seq<int>)
    requires |picks| >= n
    requires forall k :: 0 <= k < |picks| ==> picks[k] < ShardCount
    ensures |out| == n
    ensures PrimeSequence(out)
    ensures forall k :: 0 <= k < n ==> IsPrime(out[k])
    ensures forall i, j :: 0 <= i < j < n ==> out[i] < out[j]
    ensures n > 0 ==> forall p :: 2 <= p <= out[n - 1] && IsPrime(p) ==> p in out
  {
    var pool := InitialPool();
    InitialProgress();
    InitialProduced();
    out := [];
    while |out| < n
      invariant |out| <= n
      invariant PoolValid(pool)
      invariant Produced(out, pool.seeds, pool.cursor)
    {
      var reply;
      ghost var before := pool;
      pool, reply := Receive(pool, NextMsg, picks[|out|]);
      if |before.seeds| > 0 {
        ProducedSeed(out, before.seeds, before.cursor);
      } else {
        ProducedPrime(out, before.cursor, reply.value);
      }
      out := out + [reply.value];
    }
    PrimeSequenceIncreasing(out);
    if n > 0 {
      PrimeSequenceComplete(out);
    }
  }
}
